=== FILE: README.md ===
# jobby queue engine in Dafny

This project models the queue engine of jobby (`lib/worker.js`). Jobby is a
delay-capable, at-least-once job queue that sits on two Redis lists per
queue: `<prefix>:waiting` and `<prefix>:working`.

- A producer's `push` builds a record `{t, n, o}` and `LPUSH`es it onto
  `waiting`. The fields are the scheduled time, the handler name and the
  options.
- `fetch` moves the tail of `waiting` to the head of `working` with
  `BRPOPLPUSH`.
- `run` defers a job that is not yet due. For a due job it calls the
  handler, then `remove`s the record on success or `repush`es it on failure.
- `repush` is `LPUSH` onto `waiting` followed by `LREM working 1`.
- `cleanup` periodically requeues `working` entries chosen by a time
  condition.

The store is a pair of immutable sequences whose index 0 is the head of each
list. Every Redis command is a pure function from one store to the next. The
clock reading, the store's reply and the handler's outcome are parameters.
The worker as a whole is a state machine (`Engine.Step`) over the store, the
pending timers, how many fetch chains are armed (one per `start`), the done-callbacks of the handlers
that have been called and have not yet called back, and whether the
connections are open.

Modules, one per file:

- `Keys` (keys.dfy): list names.
- `Jobs` (jobs.dfy): the record and `push`'s time computation.
- `Lists` (lists.dfy): `LREM` and the list algebra behind `cleanup`.
- `Queue` (queue.dfy): the store and its commands.
- `Retry` (retry.dfy): the unconditional retry of `repush` and `remove`.
- `Runner` (runner.dfy): `run` and handler completion.
- `Reaper` (reaper.dfy): `cleanup`.
- `Engine` (engine.dfy): the worker as a state machine.
- `Options` (options.dfy): an option type.

The central result is `Engine.ReplayKeepsJobs`. Along any sequence of engine
events, every record the store held at the start is still held at the end,
or was dropped by a successful handler completion, and every such completion
belongs to a handler that was actually called. Every operation keeps jobs
this way, including `cleanup` as written.

## Model

| member | source | states |
|---|---|---|
| Keys.WaitingKey | lib/worker.js:18 | the waiting list's name starts with the prefix and ends with `:waiting` |
| Keys.WorkingKey | lib/worker.js:20 | the working list's name starts with the prefix and ends with `:working` |
| Keys.WaitingNeverWorking | lib/worker.js:18-20 | for any two prefixes, a waiting list and a working list never share a name |
| Keys.KeysDetermineThePrefix | lib/worker.js:18-20 | distinct prefixes give distinct list names, so queues never share a list |
| Jobs.ScheduledAt | lib/worker.js:56-61 | the scheduled time is the push's clock reading when no time is given or the callback is missing, the `Date`'s instant when one is given, and `ms` after the push for a number |
| Jobs.MakeJob | lib/worker.js:61-62 | the stored record carries the handler name and the options as given, with the scheduled time |
| Runner.DueAsScheduled | lib/worker.js:56-61 | a pushed job comes due at `now` when no time is given or the callback is missing, at the `Date`'s instant when one is given, and `ms` after the push for a number; until then `run` defers it by exactly the time left |
| Queue.PushWaiting | lib/worker.js:62-63 | `LPUSH` puts the record at the head of `waiting`, keeps the rest of `waiting` behind it, leaves `working` alone and adds exactly one record to the store |
| Engine.OnProduce | lib/worker.js:63 | `push` touches neither the timers, the fetch chains nor the done-callbacks, and after `disconnect` it changes nothing |
| Engine.ProduceKeepsJobs | lib/worker.js:56-64 | an accepted `push` is exactly `LPUSH` of its record `{t, n, o}` onto `waiting`, adding that one record; a failed `LPUSH`, or one after `disconnect`, leaves the store unchanged (`push` does not retry) |
| Queue.Fetch | lib/worker.js:71 | `BRPOPLPUSH` takes the tail of a non-empty `waiting` and puts it at the head of `working`; the multiset of held jobs and the total length are unchanged; on an empty `waiting` there is no transition |
| Queue.PushDoesNotOvertake | lib/worker.js:63-71 | a push does not change which record is fetched next, unless `waiting` was empty, in which case the pushed record is next |
| Engine.OnFetched | lib/worker.js:71-96 | a fetch returns a record exactly when `waiting` is non-empty; that record, the tail of `waiting`, becomes the head of `working`, the rest of `waiting` keeps its order, and no job is lost or copied |
| Runner.FetchRearmed | lib/worker.js:85-96 | `fetch` is re-armed after a deferral and after a handler call, and not after the failing handler lookup |
| Runner.Decide | lib/worker.js:83-88 | a job is deferred exactly when `t - now > 0`, by exactly `t - now`; a handler is invoked only for a due job, once, with the job's name and options; a due job whose name has no handler reaches the failing lookup |
| Engine.FetchedJobIsDispatched | lib/worker.js:71-96 | after a fetch, `waiting` loses exactly its tail, which becomes the head of `working`; a job not yet due gets exactly one pending repush timer for the same record and its fetch chain goes on; a due job adds no timer; only a due job with a handler gets its handler called; the chain goes on unless the handler lookup fails, which ends that one chain only |
| Engine.StoppedWorkerFetchesNothing | lib/worker.js:88-96 | once every fetch chain has stopped (each ended by a missing handler's throw, or all by `disconnect`), no record is fetched |
| Engine.OnFinished | lib/worker.js:88-94 | a handler's call-back uses up exactly one held done-callback, runs `remove` on success and `repush` on failure, and leaves the timers, the fetch chains and the connection alone; after `disconnect` the store is untouched |
| Engine.StepSettlesCallbacks | lib/worker.js:85-94 | a done-callback is added only when a fetched job is due and has a handler, and used up only when that handler calls back |
| Runner.Complete | lib/worker.js:88-94 | success leaves `waiting` alone; failure puts the record at the head of `waiting`; either way one copy is removed from `working` |
| Runner.CompleteAccounting | lib/worker.js:88-94 | for a record in `working`, success drops exactly that record from the store and failure keeps every job |
| Queue.Repush | lib/worker.js:99-107 | `repush` puts the record at the head of `waiting`, then deletes its first copy from `working` |
| Queue.RepushConserves | lib/worker.js:99-107 | `repush` keeps the multiset of held jobs exactly when `working` held the record; otherwise it adds exactly one copy |
| Retry.Drive | lib/worker.js:99-118 | failed `LPUSH`/`LREM` replies change nothing and are each reported once. The operation finishes exactly when the replies hold enough successes (two for `repush`, one for `remove`) and then leaves the store as one uninterrupted `repush`/`remove` would. Before that, the store shows only the calls that succeeded. It stops at the reply that finishes the operation, because no call follows it |
| Queue.Remove | lib/worker.js:111-120 | `remove` never touches `waiting`; with the record absent from `working` it is a no-op; otherwise the record's count drops by exactly one and every other count is unchanged |
| Queue.RemoveKeepsOrder | lib/worker.js:113 | the copy removed is the first from the head, and the others keep their relative order |
| Queue.RemoveAbsentIsIdempotent | lib/worker.js:113 | removing the same record twice equals removing it once exactly when `working` held at most one copy |
| Lists.RemoveFirst | lib/worker.js:113 | `LREM key 1 v` removes one copy of `v` from the multiset, changes nothing when `v` is absent, and shortens the list by one when present |
| Lists.RemoveFirstSplices | lib/worker.js:113 | `LREM key 1 v` is the list with its first occurrence of `v` cut out |
| Lists.RemoveSelectedLeavesRejected | lib/worker.js:131-133 | removing, one first occurrence at a time, every entry a selection picks leaves exactly the unpicked entries in their order |
| Lists.FilterRejectPartition | lib/worker.js:131-132 | each `working` entry is either selected or left, never both and never neither |
| Queue.RepushEach | lib/worker.js:131-133 | repushing records one after another adds `|vs|` entries in front of the old `waiting` and takes one copy of each record away from `working`'s multiset |
| Queue.RepushEachFront | lib/worker.js:131-133 | the entries put in front of the old `waiting` are exactly the repushed records |
| Queue.RepushEachClosedForm | lib/worker.js:131-133 | repushing records one after another stacks them on `waiting`, the last at the head, and deletes one copy of each from `working` |
| Queue.RepushEachConserves | lib/worker.js:131-133 | repushing records that all sit in `working` neither loses nor copies a job |
| Reaper.Sweep | lib/worker.js:124-133 | a pass that repushes the selected `working` entries in list order leaves the unselected ones in `working` in order, puts the selected ones on `waiting`, takes exactly the selected ones out of `working`, and keeps every job |
| Reaper.Cleanup | lib/worker.js:122-133 | as written, `cleanup` requeues exactly the entries with `t + jobTimeout > now`; what stays in `working` is, in order, the entries with `t + jobTimeout <= now`; no job is lost or copied |
| Reaper.CleanupMovesExactlyTheUnexpired | lib/worker.js:132 | a `working` entry leaves `working` in a `cleanup` pass if and only if `t + jobTimeout > now`, and then it is on `waiting` |
| Reaper.CleanupSelectsTheWrongEntries | lib/worker.js:132 | as written, with a one-hour timeout a job scheduled two hours ago stays in `working` and a job fetched a moment ago is requeued; the corrected pass does the opposite |
| Reaper.Reap | lib/worker.js:132 | the corrected pass requeues exactly the entries with `t + jobTimeout <= now` and keeps every job |
| Reaper.ReapMovesExactlyTheExpired | lib/worker.js:132 | under the corrected pass a `working` entry is requeued if and only if its deadline has passed |
| Engine.OnStart | lib/worker.js:22-25 | `start` keeps the done-callbacks and the connection, and after `disconnect` it changes nothing |
| Engine.StartKeepsJobs | lib/worker.js:22-25 | `start` arms one more fetch chain, sets the next `cleanup` timer (lines 134-136) and leaves the store as one `cleanup` pass at `now` does, which keeps every job; after `disconnect` it changes nothing |
| Engine.FetchedKeepsJobs | lib/worker.js:67-97 | a fetch followed by `run`'s decision keeps the multiset of held jobs |
| Engine.FinishedKeepsJobs | lib/worker.js:88-94 | a handler's completion loses at most its own record, and only on success |
| Engine.OnFire | lib/worker.js:85-136 | a firing timer leaves the pending list and only a `cleanup` timer arms the next one; a deferred job's timer runs `repush` of the same record and a `cleanup` timer runs one `cleanup` pass; after `disconnect` the store is untouched |
| Engine.FireKeepsJobs | lib/worker.js:85-136 | a firing timer, either a deferred repush or the next `cleanup`, never loses a job |
| Engine.Step | lib/worker.js:22-136 | an engine step is possible exactly when it is enabled: a fetch only while a `BRPOPLPUSH` is armed (and, to return a record, while `waiting` is non-empty), a handler's call-back only after that handler was called, a timer only while pending; after `disconnect` no step changes the store |
| Engine.StepKeepsJobs | lib/worker.js:56-139 | every engine step keeps every held job, except the one record of a successful handler completion |
| Engine.ReplayKeepsJobs | lib/worker.js:56-139 | along any run, a job leaves the store only through a successful completion of its handler, and every completion belongs to a handler that was called before the run or by one of its fetches |
| Engine.DisconnectCancelsEverything | lib/worker.js:42-54 | `disconnect` leaves the store as it is, clears every pending timer, stops fetching, and no event after it changes the store |
| Engine.DisconnectedStoreIsFrozen | lib/worker.js:42-54 | once the connections are closed, no run of later events reopens them or changes the store |

Unconditional retries are handled as follows.

- A failed `BRPOPLPUSH` (lines 72-75) is the event `FetchFailed`, which
  changes nothing.
- A failed `LRANGE` in `cleanup` (lines 125-128) changes nothing, so the
  model runs only the pass that succeeds.
- `repush` and `remove` retries are `Retry.Drive`.

Within one `cleanup` pass, Redis executes every `LPUSH` before any `LREM`.
The two commands touch different lists, so the outcome equals repushing the
selected entries one after another, and that is what is modelled.

## Findings

| source | as written | input that shows it | evidently intended | confidence | as-written member | corrected member |
|---|---|---|---|---|---|---|
| lib/worker.js:132 | `cleanup` requeues entries whose `t + jobTimeout > now`, i.e. whose deadline is still ahead | `jobTimeout` = 1 h, `now` = 2 h. An entry with `t = 0` stays in `working` forever. An entry with `t = 2 h`, just fetched and with its handler running, is requeued and delivered again. A job deferred to `t = 2 h` is requeued by the pass and again by its pending repush timer, so `waiting` holds two copies | requeue the entries whose deadline has passed (`t + jobTimeout <= now`) and leave the others | high; not executed | Reaper.CleanupSelectsTheWrongEntries (with Reaper.Cleanup, Reaper.CleanupMovesExactlyTheUnexpired) | Reaper.Reap (with Reaper.ReapMovesExactlyTheExpired) |

The engine (`Engine.Step`) follows the code and runs the pass as written.
Its no-job-lost lemmas rest only on `Reaper.Sweep`, which both passes share,
so they hold for either pass.

## Left out

- `connect` (lines 27-40) is left out. URL parsing and Redis client creation
  are foreign calls.
- `disconnect` (lines 42-54) is modelled as clearing the timers, stopping
  every fetch chain and closing the connections. Closing is I/O. The model
  takes every command issued after it as failing, so the store no longer
  changes. The retry loops those failures start are not modelled.
- Engine.DisconnectCancelsEverything: a `cleanup` pass is one atomic step,
  so the model cannot show one that `disconnect` interrupts. The write
  connection quits gracefully (line 45), so an `LRANGE` issued before
  `disconnect` still gets its reply after line 53 has cleared the timers.
  Its repushes then fail, but lines 134-136 set a fresh `cleanup` timer that
  nothing clears, and that pass later runs against the closed connection.
  The model promises that no timer is pending after `disconnect`, which the
  code does not guarantee in that interleaving.
- The worker's constructor (lines 5-9) is not a member. The initial worker
  is any `Worker`, typically one with no timers, no armed fetch, no pending
  done-callbacks and open connections.
- JSON text encoding (lines 62, 82, 132) is left out.
  - Records are a datatype, and record equality stands for the byte equality
    of their JSON text that `LREM` relies on.
  - Payload numbers are integers.
- Times are unbounded integers. The model leaves out the fractional
  milliseconds and the precision loss that JavaScript numbers allow.
- A `time` argument that is neither a `Date` nor a number is left out. With
  a string, `+new Date() + time` concatenates instead of adding.
- Error reporting through the callback (`cb(er)`, `cb(er, job)`) is left
  out. This includes the unguarded `cb(er)` at line 126, which throws when
  `start` had no callback. `Retry.Drive` only counts the failures it would
  report.
- Handler bodies are left out. A handler's outcome is a boolean event field.
  Handlers that call back twice, never call back, or throw are not modelled.
- Asynchronous interleaving is left out. Each event is one atomic step, and
  so is every other store command.
  - Any interleaving of one worker's events is a sequence of events.
  - Several workers sharing one store are not modelled.
  - The store calls of a handler completion or a timer are applied as
    succeeding. `Retry.Drive` covers their failures separately.
- Real timers are left out. A pending timer may fire at any later step, and
  the model does not check that its delay has elapsed.
  - A fired timer is dropped from the pending list. The source keeps its
    handle, but clearing a fired timer has no effect.
- The blocking of `BRPOPLPUSH` is modelled as no `Fetched` transition while
  `waiting` is empty.
- Engine.ProduceKeepsJobs: a `push` with a `time` but no callback
  (`WithTime(_, false)`) is modelled as storing one record due now. At line
  63 the code then passes that `time` to `lpush` as a trailing argument
  that is not a function. The client library sends such an argument as a
  further list value, so the code would also push the text of the number or
  `Date`, which `run` cannot parse. The client library is not part of this
  model, so that second entry is left out.

=== FILE: engine.dfy ===
/**
 * The worker as a state machine. Each event is one step of the engine: the
 * clock reading, the store's reply and the handler's outcome arrive as event
 * fields, so every step is a pure function of the state and the event.
 */
module Engine {
  import opened Options
  import opened Jobs
  import opened Queue
  import opened Runner
  import opened Reaper

  /** A pending timer, as kept in the worker's list of timeouts. */
  datatype Timer =
      /** A deferred job's repush, due `delay` milliseconds after it was set. */
    | RepushAfter(job: Job, delay: int)
      /** The next `cleanup` pass, due `interval` milliseconds after it was set. */
    | CleanupAfter(interval: int)

  /**
   * The worker's settings and the names that have handlers. Both durations
   * default to one hour (`Reaper.DefaultJobTimeout`).
   */
  datatype Config = Config(jobTimeout: int, cleanupInterval: int, handlers: set<string>)

  /**
   * The store, the pending timers, how many `BRPOPLPUSH` chains are armed
   * (each `start` arms one, and each goes on until a missing handler's
   * lookup throws), the
   * records whose handler has been called and has not yet called back (the
   * done-callbacks the event loop still holds), and whether the connections
   * are open.
   */
  datatype Worker = Worker(store: Store, timers: seq<Timer>, fetches: nat,
                           invoked: multiset<Job>, connected: bool)

  datatype Event =
      /** `start`: arm `fetch` and run a `cleanup` pass at `now`. */
    | Start(now: int)
      /** `push` at clock reading `now`; `accepted` is whether `LPUSH` succeeded. */
    | Produce(name: string, o: Payload, call: PushCall, now: int, accepted: bool)
      /** The armed `BRPOPLPUSH` returns a record, which `run` handles at `now`. */
    | Fetched(now: int)
      /** The armed `BRPOPLPUSH` fails; `fetch` reports it and arms a new one. */
    | FetchFailed
      /** The handler called for `job` calls back, with or without an error. */
    | Finished(job: Job, succeeded: bool)
      /** The pending timer at position `i` fires at `now`. */
    | Fire(i: nat, now: int)
      /** `disconnect`: close both connections and clear every timer. */
    | Disconnect

  /**
   * The events that can happen in `w`: a fetch needs an armed `BRPOPLPUSH`,
   * and a successful one an open connection and a non-empty `waiting`; a
   * handler can call back only if it was called; a timer must be pending.
   */
  predicate Enabled(w: Worker, e: Event)
  {
    match e
    case Fetched(_) => w.connected && w.fetches > 0 && |w.store.waiting| > 0
    case FetchFailed => w.fetches > 0
    case Finished(job, _) => job in w.invoked
    case Fire(i, _) => i < |w.timers|
    case _ => true
  }

  /**
   * The worker after `e`, or `None` when `e` cannot happen in `w`. Once the
   * connections are closed, every command fails and the store stays as it
   * is.
   */
  function Step(cfg: Config, w: Worker, e: Event): (r: Option<Worker>)
    ensures r.Some? <==> Enabled(w, e)
    ensures r.Some? && !w.connected ==> r.value.store == w.store
  {
    match e
    case Start(now) =>
      Some(OnStart(cfg, w, now))
    case Produce(name, o, call, now, accepted) =>
      Some(OnProduce(w, MakeJob(name, o, call, now), accepted))
    case Fetched(now) =>
      if w.connected && w.fetches > 0 then OnFetched(cfg, w, now) else None
    case FetchFailed =>
      if w.fetches > 0 then Some(w) else None
    case Finished(job, succeeded) =>
      if job in w.invoked then Some(OnFinished(w, job, succeeded)) else None
    case Fire(i, now) =>
      if i < |w.timers| then Some(OnFire(cfg, w, i, now)) else None
    case Disconnect =>
      Some(w.(timers := [], fetches := 0, connected := false))
  }

  /** `start`: arm `fetch`, run a `cleanup` pass and set the next one's timer. */
  function OnStart(cfg: Config, w: Worker, now: int): (r: Worker)
    ensures r.invoked == w.invoked && r.connected == w.connected
    ensures !w.connected ==> r == w
  {
    if w.connected then
      w.(store := Cleanup(w.store, now, cfg.jobTimeout),
         timers := w.timers + [CleanupAfter(cfg.cleanupInterval)],
         fetches := w.fetches + 1)
    else w
  }

  /** `push` of `job`, whose `LPUSH` succeeds exactly when `accepted` holds and the connection is open. */
  function OnProduce(w: Worker, job: Job, accepted: bool): (r: Worker)
    ensures r.invoked == w.invoked && r.connected == w.connected
    ensures r.timers == w.timers && r.fetches == w.fetches
    ensures !w.connected ==> r == w
  {
    if accepted && w.connected then w.(store := PushWaiting(w.store, job)) else w
  }

  /**
   * `BRPOPLPUSH` returns a record and `run` handles it. It is defined exactly
   * when `waiting` holds a record; the record moves from the tail of
   * `waiting` to the head of `working`, the rest keep their order, and no
   * job is lost or copied. A missing handler ends this fetch chain.
   */
  function OnFetched(cfg: Config, w: Worker, now: int): (r: Option<Worker>)
    requires w.fetches > 0
    ensures r.Some? <==> |w.store.waiting| > 0
    ensures r.Some? ==> r.value.store.waiting == w.store.waiting[..|w.store.waiting| - 1]
    ensures r.Some? ==> r.value.store.working == [w.store.waiting[|w.store.waiting| - 1]] + w.store.working
    ensures r.Some? ==> Held(r.value.store) == Held(w.store)
    ensures r.Some? ==> r.value.connected == w.connected
  {
    match Fetch(w.store)
    case None => None
    case Some(moved) =>
      var job := moved.0;
      var d := Decide(job, now, cfg.handlers);
      var timers := if d.Defer? then w.timers + [RepushAfter(job, d.delay)] else w.timers;
      var invoked := if d.Invoke? then w.invoked + multiset{job} else w.invoked;
      var fetches := if FetchRearmed(d) then w.fetches else w.fetches - 1;
      Some(Worker(moved.1, timers, fetches, invoked, w.connected))
  }

  /**
   * The handler called for `job` calls back: its done-callback is used up,
   * and on an open connection the record is removed or requeued.
   */
  function OnFinished(w: Worker, job: Job, succeeded: bool): (r: Worker)
    requires job in w.invoked
    ensures r.invoked + multiset{job} == w.invoked
    ensures w.connected ==> r.store == Complete(w.store, job, succeeded)
    ensures !w.connected ==> r.store == w.store
    ensures r.timers == w.timers && r.fetches == w.fetches && r.connected == w.connected
  {
    var s := if w.connected then Complete(w.store, job, succeeded) else w.store;
    w.(store := s, invoked := w.invoked - multiset{job})
  }

  /**
   * The timer at position `i` fires and leaves the pending list; a `cleanup`
   * timer arms the next one. On a closed connection its command fails and
   * the store stays as it is.
   */
  function OnFire(cfg: Config, w: Worker, i: nat, now: int): (r: Worker)
    requires i < |w.timers|
    ensures multiset(r.timers) + multiset{w.timers[i]}
         == multiset(w.timers) + (if w.connected && w.timers[i].CleanupAfter?
                                  then multiset{CleanupAfter(cfg.cleanupInterval)} else multiset{})
    ensures r.fetches == w.fetches && r.invoked == w.invoked && r.connected == w.connected
    ensures !w.connected ==> r.store == w.store
    ensures w.connected && w.timers[i].RepushAfter? ==> r.store == Repush(w.store, w.timers[i].job)
    ensures w.connected && w.timers[i].CleanupAfter? ==> r.store == Cleanup(w.store, now, cfg.jobTimeout)
  {
    var others := w.timers[..i] + w.timers[i + 1..];
    assert w.timers == w.timers[..i] + [w.timers[i]] + w.timers[i + 1..];
    if !w.connected then w.(timers := others)
    else match w.timers[i]
      case RepushAfter(job, _) =>
        w.(store := Repush(w.store, job), timers := others)
      case CleanupAfter(_) =>
        w.(store := Cleanup(w.store, now, cfg.jobTimeout),
           timers := others + [CleanupAfter(cfg.cleanupInterval)])
  }

  /** The record a successful handler completion in `e` removes, if any. */
  function Completed(e: Event): multiset<Job>
  {
    if e.Finished? && e.succeeded then multiset{e.job} else multiset{}
  }

  /** The record whose done-callback `e` uses up, if any. */
  function Reported(e: Event): multiset<Job>
  {
    if e.Finished? then multiset{e.job} else multiset{}
  }

  /** The record whose handler `e` calls, if any: a fetched job that is due and has a handler. */
  function Invokes(cfg: Config, w: Worker, e: Event): multiset<Job>
  {
    if e.Fetched? && Enabled(w, e) then
      var job := w.store.waiting[|w.store.waiting| - 1];
      if job.t <= e.now && job.n in cfg.handlers then multiset{job} else multiset{}
    else multiset{}
  }

  /**
   * No step loses a job except the successful completion of its handler:
   * every record held before the step is still held after it, or is the one
   * record whose handler has just succeeded.
   */
  lemma {:induction false} StepKeepsJobs(cfg: Config, w: Worker, e: Event)
    requires Enabled(w, e)
    ensures Step(cfg, w, e).Some?
    ensures Held(w.store) <= Held(Step(cfg, w, e).value.store) + Completed(e)
  {
    match e {
      case Start(now) =>
        StartKeepsJobs(cfg, w, now);
      case Produce(name, o, call, now, accepted) =>
        ProduceKeepsJobs(cfg, w, name, o, call, now, accepted);
      case Fetched(now) =>
        FetchedKeepsJobs(cfg, w, now);
      case FetchFailed =>
      case Finished(job, succeeded) =>
        FinishedKeepsJobs(cfg, w, job, succeeded);
      case Fire(i, now) =>
        FireKeepsJobs(cfg, w, i, now);
      case Disconnect =>
    }
  }

  /**
   * Every step keeps the ledger of done-callbacks: a handler's call-back
   * uses up one that is held, and only a fetch of a due job with a handler
   * adds one.
   */
  lemma StepSettlesCallbacks(cfg: Config, w: Worker, e: Event)
    requires Enabled(w, e)
    ensures Step(cfg, w, e).value.invoked + Reported(e) == w.invoked + Invokes(cfg, w, e)
  {
    if e.Fetched? {
      var job := w.store.waiting[|w.store.waiting| - 1];
      assert Fetch(w.store).value.0 == job;
    }
  }

  /**
   * `start` on an open connection arms fetch, sets the next `cleanup` timer
   * and runs a `cleanup` pass, which keeps every job; on a closed one it
   * changes nothing.
   */
  lemma StartKeepsJobs(cfg: Config, w: Worker, now: int)
    ensures var w' := Step(cfg, w, Start(now)).value;
      && Held(w'.store) == Held(w.store)
      && (w.connected ==> w'.fetches == w.fetches + 1 && w'.timers == w.timers + [CleanupAfter(cfg.cleanupInterval)])
      && (w.connected ==> w'.store == Cleanup(w.store, now, cfg.jobTimeout))
      && (!w.connected ==> w' == w)
  {
  }

  /**
   * An accepted `push` on an open connection adds exactly its record; a
   * refused one changes nothing.
   */
  lemma ProduceKeepsJobs(cfg: Config, w: Worker, name: string, o: Payload, call: PushCall,
                         now: int, accepted: bool)
    ensures var w' := Step(cfg, w, Produce(name, o, call, now, accepted)).value;
      && Held(w'.store) == Held(w.store) + (if accepted && w.connected then multiset{MakeJob(name, o, call, now)} else multiset{})
      && (accepted && w.connected ==> w'.store == PushWaiting(w.store, MakeJob(name, o, call, now)))
      && (!(accepted && w.connected) ==> w'.store == w.store)
  {
  }

  /** A fetch, whatever `run` then decides, keeps every job. */
  lemma FetchedKeepsJobs(cfg: Config, w: Worker, now: int)
    requires w.connected && w.fetches > 0 && |w.store.waiting| > 0
    ensures Held(Step(cfg, w, Fetched(now)).value.store) == Held(w.store)
  {
  }

  /** A handler's completion loses at most its own record, and only on success. */
  lemma FinishedKeepsJobs(cfg: Config, w: Worker, job: Job, succeeded: bool)
    requires job in w.invoked
    ensures var w' := Step(cfg, w, Finished(job, succeeded)).value;
      Held(w.store) <= Held(w'.store) + (if succeeded then multiset{job} else multiset{})
  {
    var s := w.store;
    var r := Step(cfg, w, Finished(job, succeeded)).value.store;
    if !w.connected {
      assert r == s;
    } else if job in s.working {
      assert r == Complete(s, job, succeeded);
      CompleteAccounting(s, job);
    } else if succeeded {
      assert r == Complete(s, job, succeeded);
      assert r == s;
    } else {
      assert r == Complete(s, job, succeeded);
      assert multiset(r.working) == multiset(s.working);
      assert Held(r) == Held(s) + multiset{job};
    }
  }

  /** A firing timer, a deferred repush or a `cleanup` pass, never loses a job. */
  lemma FireKeepsJobs(cfg: Config, w: Worker, i: nat, now: int)
    requires i < |w.timers|
    ensures Held(w.store) <= Held(Step(cfg, w, Fire(i, now)).value.store)
  {
    var r := OnFire(cfg, w, i, now).store;
    assert Step(cfg, w, Fire(i, now)).value.store == r;
    if w.connected {
      match w.timers[i] {
        case RepushAfter(job, _) =>
          assert r == Repush(w.store, job);
          RepushConserves(w.store, job);
        case CleanupAfter(_) =>
          assert r == Cleanup(w.store, now, cfg.jobTimeout);
      }
    }
  }

  /** The worker after each event of `es` in turn, or `None` if one cannot happen. */
  function Replay(cfg: Config, w: Worker, es: seq<Event>): Option<Worker>
    decreases |es|
  {
    if |es| == 0 then Some(w)
    else match Step(cfg, w, es[0])
      case None => None
      case Some(next) => Replay(cfg, next, es[1..])
  }

  /** The records the successful handler completions of `es` remove. */
  function CompletedAll(es: seq<Event>): multiset<Job>
    decreases |es|
  {
    if |es| == 0 then multiset{} else Completed(es[0]) + CompletedAll(es[1..])
  }

  /** The records whose handlers the events of `es` call, starting from `w`. */
  function InvokedAlong(cfg: Config, w: Worker, es: seq<Event>): multiset<Job>
    decreases |es|
  {
    if |es| == 0 then multiset{}
    else match Step(cfg, w, es[0])
      case None => multiset{}
      case Some(next) => Invokes(cfg, w, es[0]) + InvokedAlong(cfg, next, es[1..])
  }

  /**
   * At-least-once, as far as the store can promise it: along any run of the
   * engine, a job leaves the store only through a successful completion of
   * its handler, and every such completion belongs to a handler that was
   * called, either before the run or by one of its fetches.
   */
  lemma {:induction false} ReplayKeepsJobs(cfg: Config, w: Worker, es: seq<Event>)
    requires Replay(cfg, w, es).Some?
    ensures Held(w.store) <= Held(Replay(cfg, w, es).value.store) + CompletedAll(es)
    ensures CompletedAll(es) <= w.invoked + InvokedAlong(cfg, w, es)
    decreases |es|
  {
    if |es| > 0 {
      var e := es[0];
      var next := Step(cfg, w, e).value;
      StepKeepsJobs(cfg, w, e);
      StepSettlesCallbacks(cfg, w, e);
      ReplayKeepsJobs(cfg, next, es[1..]);
      assert Completed(e) <= Reported(e);
    }
  }

  /**
   * `fetch` moves a due job with a handler into the handler's hands and a
   * job not yet due into a pending repush timer, and never runs a handler
   * early. A due job with no handler ends the fetch chain that fetched it.
   */
  lemma FetchedJobIsDispatched(cfg: Config, w: Worker, now: int)
    requires w.connected && w.fetches > 0 && |w.store.waiting| > 0
    ensures var job := w.store.waiting[|w.store.waiting| - 1];
      var w' := Step(cfg, w, Fetched(now)).value;
      && w'.store.waiting == w.store.waiting[..|w.store.waiting| - 1]
      && w'.store.working == [job] + w.store.working
      && (job.t > now ==> w'.timers == w.timers + [RepushAfter(job, job.t - now)] && w'.fetches == w.fetches)
      && (job.t <= now ==> w'.timers == w.timers)
      && (job.t <= now && job.n in cfg.handlers ==> w'.fetches == w.fetches && w'.invoked == w.invoked + multiset{job})
      && (job.t <= now && job.n !in cfg.handlers ==> w'.fetches == w.fetches - 1)
      && (job.t > now || job.n !in cfg.handlers ==> w'.invoked == w.invoked)
  {
  }

  /** Once every fetch chain has stopped, no record is fetched again. */
  lemma StoppedWorkerFetchesNothing(cfg: Config, w: Worker, now: int)
    requires w.fetches == 0
    ensures Step(cfg, w, Fetched(now)).None?
    ensures Step(cfg, w, FetchFailed).None?
  {
  }

  /**
   * After `disconnect` no timer is pending, no record is fetched, and no
   * later event changes the store.
   */
  lemma DisconnectCancelsEverything(cfg: Config, w: Worker, i: nat, now: int, e: Event)
    ensures var w' := Step(cfg, w, Disconnect).value;
      && w'.store == w.store
      && Step(cfg, w', Fire(i, now)).None?
      && Step(cfg, w', Fetched(now)).None?
      && (Enabled(w', e) ==> Step(cfg, w', e).value.store == w.store)
  {
  }

  /**
   * Once the connections are closed they stay closed, and no run of later
   * events changes the store: every command those events issue fails.
   */
  lemma {:induction false} DisconnectedStoreIsFrozen(cfg: Config, w: Worker, es: seq<Event>)
    requires !w.connected
    requires Replay(cfg, w, es).Some?
    ensures Replay(cfg, w, es).value.store == w.store
    ensures !Replay(cfg, w, es).value.connected
    decreases |es|
  {
    if |es| > 0 {
      var next := Step(cfg, w, es[0]).value;
      assert !next.connected;
      DisconnectedStoreIsFrozen(cfg, next, es[1..]);
    }
  }
}

=== FILE: jobs.dfy ===
/**
 * The job record a producer stores: `{t, n, o}` serialised as JSON. Records
 * are compared by value, which stands for the byte equality of their JSON
 * text that `LREM` relies on.
 */
module Jobs {

  /** A JSON value as the options payload; numbers are modelled as integers. */
  datatype Payload =
    | Null
    | Bool(b: bool)
    | Number(n: int)
    | Text(s: string)
    | List(items: seq<Payload>)
    | Object(fields: seq<(string, Payload)>)

  /**
   * A stored job: `t` is the earliest time it may run (epoch milliseconds),
   * `n` the name of its handler and `o` the options passed to the handler.
   */
  datatype Job = Job(t: int, n: string, o: Payload)

  /** The `time` argument of `push`: a `Date`, or a number of milliseconds from now. */
  datatype Time = At(ms: int) | After(ms: int)

  /**
   * How `push` was called. `NoTime` is `push(name, options, cb)`. `WithTime`
   * is `push(name, options, time, cb)`; when its callback is missing, `push`
   * takes `time` for the callback and schedules the job for now.
   */
  datatype PushCall = NoTime | WithTime(time: Time, callbackGiven: bool)

  /**
   * The scheduled time `push` computes, given the clock reading `now`: now
   * when no time is given or the callback is missing, the instant itself for
   * a `Date`, and `ms` after now for a number.
   */
  function ScheduledAt(call: PushCall, now: int): (t: int)
    ensures call.NoTime? ==> t == now
    ensures call.WithTime? && !call.callbackGiven ==> t == now
    ensures call.WithTime? && call.callbackGiven && call.time.At? ==> t == call.time.ms
    ensures call.WithTime? && call.callbackGiven && call.time.After? ==> t - now == call.time.ms
  {
    match call
    case NoTime => now
    case WithTime(time, callbackGiven) =>
      if !callbackGiven then now
      else match time
        case At(ms) => ms
        case After(ms) => now + ms
  }

  /**
   * The record `push` stores for a job called `name` with options `o`: the
   * name and the options are kept as given, next to the computed time.
   */
  function MakeJob(name: string, o: Payload, call: PushCall, now: int): (j: Job)
    ensures j.n == name && j.o == o
    ensures j.t == ScheduledAt(call, now)
  {
    Job(ScheduledAt(call, now), name, o)
  }
}

=== FILE: keys.dfy ===
/**
 * Names of the two Redis lists a worker uses. Every queue lives under a key
 * prefix (`jobby` by default) and owns the lists `<prefix>:waiting` and
 * `<prefix>:working`.
 */
module Keys {

  const WaitingSuffix: string := ":waiting"
  const WorkingSuffix: string := ":working"

  /** Name of the list that holds jobs not yet claimed by a worker. */
  function WaitingKey(prefix: string): (k: string)
    ensures prefix <= k
    ensures k[|prefix|..] == WaitingSuffix
  {
    prefix + WaitingSuffix
  }

  /** Name of the list that holds jobs claimed by a worker. */
  function WorkingKey(prefix: string): (k: string)
    ensures prefix <= k
    ensures k[|prefix|..] == WorkingSuffix
  {
    prefix + WorkingSuffix
  }

  /**
   * A waiting list and a working list never share a name, whatever the two
   * prefixes are: both suffixes have eight characters and first differ at
   * their third one, so equal lengths still leave the names apart.
   */
  lemma WaitingNeverWorking(p: string, q: string)
    ensures WaitingKey(p) != WorkingKey(q)
  {
    if |p| == |q| {
      assert WaitingKey(p)[|p| + 2] == 'a';
      assert WorkingKey(q)[|q| + 2] == 'o';
    }
  }

  /** Distinct prefixes give distinct lists, so queues never share a list. */
  lemma KeysDetermineThePrefix(p: string, q: string)
    ensures WaitingKey(p) == WaitingKey(q) ==> p == q
    ensures WorkingKey(p) == WorkingKey(q) ==> p == q
  {
    if WaitingKey(p) == WaitingKey(q) {
      assert p == WaitingKey(p)[..|p|];
      assert q == WaitingKey(q)[..|q|];
    }
    if WorkingKey(p) == WorkingKey(q) {
      assert p == WorkingKey(p)[..|p|];
      assert q == WorkingKey(q)[..|q|];
    }
  }
}

=== FILE: lists.dfy ===
/**
 * Operations on Redis lists, seen as sequences whose head (index 0) is the
 * left end: `LPUSH` prepends and `RPOP` takes the last element.
 */
module Lists {

  /** Position of the first occurrence of `v`, scanning from the head. */
  function FirstIndex<T(==)>(xs: seq<T>, v: T): (i: nat)
    requires v in xs
    ensures i < |xs| && xs[i] == v
    ensures forall j :: 0 <= j < i ==> xs[j] != v
  {
    if xs[0] == v then 0
    else
      assert v in xs[1..] by { assert xs == [xs[0]] + xs[1..]; }
      1 + FirstIndex(xs[1..], v)
  }

  /**
   * `LREM key 1 v`: delete the first occurrence of `v` from the head. When
   * `v` is absent the list is unchanged; otherwise exactly one copy of `v`
   * goes and nothing else does.
   */
  function RemoveFirst<T(==)>(xs: seq<T>, v: T): (r: seq<T>)
    ensures multiset(r) == multiset(xs) - multiset{v}
    ensures v !in xs ==> r == xs
    ensures v in xs ==> |r| == |xs| - 1
  {
    if |xs| == 0 then []
    else
      var x, rest := xs[0], xs[1..];
      assert xs == [x] + rest;
      assert multiset(xs) == multiset{x} + multiset(rest);
      if x == v then rest
      else [x] + RemoveFirst(rest, v)
  }

  /**
   * The copy `LREM` deletes is the first one from the head, at position `i`,
   * and the elements before and after it keep their relative order.
   */
  lemma {:induction false} RemoveFirstSplices<T>(xs: seq<T>, v: T, i: nat)
    requires i < |xs| && xs[i] == v
    requires forall j :: 0 <= j < i ==> xs[j] != v
    ensures RemoveFirst(xs, v) == xs[..i] + xs[i + 1..]
  {
    var x, rest := xs[0], xs[1..];
    assert xs == [x] + rest;
    if i == 0 {
      assert RemoveFirst(xs, v) == rest;
    } else {
      assert x != v;
      RemoveFirstSplices(rest, v, i - 1);
      assert RemoveFirst(xs, v) == [x] + RemoveFirst(rest, v);
      assert xs[..i] == [x] + rest[..i - 1];
      assert xs[i + 1..] == rest[i..];
    }
  }

  /** `RemoveFirst` for each element of `vs`, in the order of `vs`. */
  function RemoveEach<T(==)>(xs: seq<T>, vs: seq<T>): (r: seq<T>)
    ensures multiset(r) == multiset(xs) - multiset(vs)
    decreases |vs|
  {
    if |vs| == 0 then xs
    else
      assert vs == [vs[0]] + vs[1..];
      RemoveEach(RemoveFirst(xs, vs[0]), vs[1..])
  }

  /** The elements of `xs` that `keep` selects, in list order. */
  function Filter<T(==,!new)>(xs: seq<T>, keep: T -> bool): (r: seq<T>)
    ensures forall i :: 0 <= i < |r| ==> keep(r[i])
    ensures forall x :: x in r <==> x in xs && keep(x)
    ensures multiset(r) <= multiset(xs)
  {
    if |xs| == 0 then []
    else
      assert xs == [xs[0]] + xs[1..];
      if keep(xs[0]) then [xs[0]] + Filter(xs[1..], keep)
      else Filter(xs[1..], keep)
  }

  /** The elements of `xs` that `keep` does not select, in list order. */
  function Reject<T(==,!new)>(xs: seq<T>, keep: T -> bool): (r: seq<T>)
    ensures forall i :: 0 <= i < |r| ==> !keep(r[i])
    ensures forall x :: x in r <==> x in xs && !keep(x)
    ensures multiset(r) <= multiset(xs)
  {
    if |xs| == 0 then []
    else
      assert xs == [xs[0]] + xs[1..];
      if keep(xs[0]) then Reject(xs[1..], keep)
      else [xs[0]] + Reject(xs[1..], keep)
  }

  /** Every element is selected or rejected, and never both. */
  lemma {:induction false} FilterRejectPartition<T(!new)>(xs: seq<T>, keep: T -> bool)
    ensures multiset(Filter(xs, keep)) + multiset(Reject(xs, keep)) == multiset(xs)
  {
    if |xs| > 0 {
      assert xs == [xs[0]] + xs[1..];
      FilterRejectPartition(xs[1..], keep);
    }
  }

  /** The list read back to front. */
  function Reverse<T>(xs: seq<T>): (r: seq<T>)
    ensures |r| == |xs|
    ensures multiset(r) == multiset(xs)
  {
    if |xs| == 0 then []
    else
      assert xs == [xs[0]] + xs[1..];
      Reverse(xs[1..]) + [xs[0]]
  }

  /** `LREM` passes over a head element that differs from the value deleted. */
  lemma RemoveFirstPassesOver<T>(x: T, ys: seq<T>, v: T)
    requires v != x
    ensures RemoveFirst([x] + ys, v) == [x] + RemoveFirst(ys, v)
  {
    assert ([x] + ys)[1..] == ys;
  }

  /** Deleting values that do not include `x` never touches a leading `x`. */
  lemma {:induction false} RemoveEachSkips<T>(x: T, ys: seq<T>, vs: seq<T>)
    requires x !in vs
    ensures RemoveEach([x] + ys, vs) == [x] + RemoveEach(ys, vs)
    decreases |vs|
  {
    if |vs| > 0 {
      var v, rest := vs[0], vs[1..];
      assert x !in rest by { assert vs == [v] + rest; }
      RemoveFirstPassesOver(x, ys, v);
      RemoveEachSkips(x, RemoveFirst(ys, v), rest);
    }
  }

  /**
   * Deleting, one first occurrence at a time, every element a selection picks
   * leaves exactly the elements it did not pick, in their original order.
   */
  lemma {:induction false} RemoveSelectedLeavesRejected<T(!new)>(xs: seq<T>, keep: T -> bool)
    ensures RemoveEach(xs, Filter(xs, keep)) == Reject(xs, keep)
  {
    if |xs| > 0 {
      var x, rest := xs[0], xs[1..];
      assert xs == [x] + rest;
      RemoveSelectedLeavesRejected(rest, keep);
      if keep(x) {
        assert Filter(xs, keep) == [x] + Filter(rest, keep);
        assert RemoveFirst(xs, x) == rest;
      } else {
        assert Filter(xs, keep) == Filter(rest, keep);
        RemoveEachSkips(x, rest, Filter(rest, keep));
      }
    }
  }
}

=== FILE: options.dfy ===
/** Optional values, for store calls that may not produce anything. */
module Options {

  datatype Option<+T> = None | Some(value: T)
}

=== FILE: queue.dfy ===
/**
 * The two Redis lists of one queue and the store commands the worker issues
 * on them. The head of each list is index 0.
 */
module Queue {
  import opened Options
  import opened Jobs
  import opened Lists

  /** The `<prefix>:waiting` and `<prefix>:working` lists. */
  datatype Store = Store(waiting: seq<Job>, working: seq<Job>)

  /** Every job record the store holds, in either list, with multiplicity. */
  function Held(s: Store): multiset<Job>
  {
    multiset(s.waiting) + multiset(s.working)
  }

  /** `LPUSH <prefix>:waiting v`. */
  function PushWaiting(s: Store, v: Job): (r: Store)
    ensures |r.waiting| == |s.waiting| + 1 && r.waiting[0] == v && r.waiting[1..] == s.waiting
    ensures r.working == s.working
    ensures Held(r) == Held(s) + multiset{v}
  {
    Store([v] + s.waiting, s.working)
  }

  /**
   * `BRPOPLPUSH <prefix>:waiting <prefix>:working 0`: atomically move the
   * tail of `waiting` to the head of `working`. On an empty `waiting` the
   * command blocks, which is `None` here.
   */
  function Fetch(s: Store): (r: Option<(Job, Store)>)
    ensures r.None? <==> |s.waiting| == 0
    ensures r.Some? ==> s.waiting == r.value.1.waiting + [r.value.0]
    ensures r.Some? ==> r.value.1.working == [r.value.0] + s.working
    ensures r.Some? ==> Held(r.value.1) == Held(s)
    ensures r.Some? ==> |r.value.1.waiting| + |r.value.1.working| == |s.waiting| + |s.working|
  {
    if |s.waiting| == 0 then None
    else
      var n := |s.waiting| - 1;
      var v := s.waiting[n];
      assert s.waiting == s.waiting[..n] + [v];
      Some((v, Store(s.waiting[..n], [v] + s.working)))
  }

  /**
   * A push never overtakes: the next record fetched is the one that was next
   * before the push, and a record pushed onto an empty `waiting` is next.
   */
  lemma PushDoesNotOvertake(s: Store, v: Job)
    ensures |s.waiting| > 0 ==> Fetch(PushWaiting(s, v)).value.0 == Fetch(s).value.0
    ensures |s.waiting| == 0 ==> Fetch(PushWaiting(s, v)).value.0 == v
  {
  }

  /**
   * `LREM <prefix>:working 1 v` (`remove`): delete the first copy of `v`
   * from the head of `working`; `waiting` is never touched.
   */
  function Remove(s: Store, v: Job): (r: Store)
    ensures r.waiting == s.waiting
    ensures v !in s.working ==> r == s
    ensures v in s.working ==> |r.working| == |s.working| - 1
    ensures multiset(r.working) == multiset(s.working) - multiset{v}
  {
    Store(s.waiting, RemoveFirst(s.working, v))
  }

  /**
   * Removal deletes the first matching entry from the head (`FirstIndex`
   * is the first position holding `v`) and keeps the others in order.
   */
  lemma RemoveKeepsOrder(s: Store, v: Job)
    requires v in s.working
    ensures var i := FirstIndex(s.working, v);
      Remove(s, v).working == s.working[..i] + s.working[i + 1..]
  {
    RemoveFirstSplices(s.working, v, FirstIndex(s.working, v));
  }

  /** Removing a record the working list no longer holds is harmless. */
  lemma RemoveAbsentIsIdempotent(s: Store, v: Job)
    ensures Remove(Remove(s, v), v) == Remove(s, v) <==> multiset(s.working)[v] <= 1
  {
    var once := Remove(s, v);
    if multiset(s.working)[v] <= 1 {
      assert v !in once.working;
    } else {
      assert multiset(once.working)[v] == multiset(s.working)[v] - 1;
      assert v in once.working;
      assert |Remove(once, v).working| == |once.working| - 1;
    }
  }

  /**
   * `repush`: push `v` to the head of `waiting`, then remove one copy of it
   * from `working`. When `working` held `v` the job moves between the lists;
   * otherwise the push adds a copy.
   */
  function Repush(s: Store, v: Job): (r: Store)
    ensures r.waiting == [v] + s.waiting
    ensures r.working == RemoveFirst(s.working, v)
  {
    Remove(PushWaiting(s, v), v)
  }

  /**
   * A repush of a record `working` holds moves it to `waiting` without losing
   * or copying it; a repush of a record `working` no longer holds adds a copy.
   */
  lemma RepushConserves(s: Store, v: Job)
    ensures v in s.working <==> Held(Repush(s, v)) == Held(s)
    ensures v !in s.working <==> Held(Repush(s, v)) == Held(s) + multiset{v}
  {
    var r := Repush(s, v);
    assert multiset(r.waiting) == multiset{v} + multiset(s.waiting);
    assert multiset(r.working) == multiset(s.working) - multiset{v};
    MoveOne(multiset(s.waiting), multiset(s.working), v);
  }

  /** Adding `v` on one side and taking one `v` from the other. */
  lemma MoveOne<T>(w: multiset<T>, k: multiset<T>, v: T)
    ensures v in k <==> (multiset{v} + w) + (k - multiset{v}) == w + k
    ensures v !in k <==> (multiset{v} + w) + (k - multiset{v}) == w + k + multiset{v}
  {
    var m := (multiset{v} + w) + (k - multiset{v});
    if v in k {
      assert m == w + k;
      assert m[v] != (w + k + multiset{v})[v];
    } else {
      assert k - multiset{v} == k;
      assert m == w + k + multiset{v};
      assert m[v] != (w + k)[v];
    }
  }

  /**
   * `repush` of each of `vs`, in the order of `vs`: the records go in front
   * of what `waiting` held, and `working` loses one copy of each record it
   * holds.
   */
  function RepushEach(s: Store, vs: seq<Job>): (r: Store)
    ensures |r.waiting| == |vs| + |s.waiting|
    ensures r.waiting[|vs|..] == s.waiting
    ensures multiset(r.working) == multiset(s.working) - multiset(vs)
    decreases |vs|
  {
    if |vs| == 0 then s
    else
      var r := RepushEach(Repush(s, vs[0]), vs[1..]);
      RepushOneMore(s, vs, r);
      r
  }

  /** One more `repush` in front of the rest keeps `RepushEach`'s contract. */
  lemma RepushOneMore(s: Store, vs: seq<Job>, r: Store)
    requires |vs| > 0
    requires |r.waiting| == |vs| + |s.waiting|
    requires r.waiting[|vs| - 1..] == [vs[0]] + s.waiting
    requires multiset(r.working) == (multiset(s.working) - multiset{vs[0]}) - multiset(vs[1..])
    ensures r.waiting[|vs|..] == s.waiting
    ensures multiset(r.working) == multiset(s.working) - multiset(vs)
  {
    assert r.waiting[|vs|..] == r.waiting[|vs| - 1..][1..];
    assert multiset(vs) == multiset{vs[0]} + multiset(vs[1..]) by {
      assert vs == [vs[0]] + vs[1..];
    }
    SubtractInTurn(multiset(s.working), multiset{vs[0]}, multiset(vs[1..]));
  }

  /** Taking `a` away and then `b` is taking away `a + b`. */
  lemma SubtractInTurn<T>(m: multiset<T>, a: multiset<T>, b: multiset<T>)
    ensures (m - a) - b == m - (a + b)
  {
    forall x
      ensures ((m - a) - b)[x] == (m - (a + b))[x]
    {
    }
  }

  /**
   * Repushing `vs` one after the other stacks them on `waiting` in reverse
   * order (the last one repushed ends at the head) and deletes one copy of
   * each from `working`.
   */
  lemma {:induction false} RepushEachClosedForm(s: Store, vs: seq<Job>)
    ensures RepushEach(s, vs) == Store(Reverse(vs) + s.waiting, RemoveEach(s.working, vs))
  {
    RepushEachWaiting(s, vs);
    RepushEachWorking(s, vs);
  }

  /** The entries repushing `vs` puts in front of the old `waiting` are exactly the records of `vs`. */
  lemma RepushEachFront(s: Store, vs: seq<Job>)
    ensures multiset(RepushEach(s, vs).waiting[..|vs|]) == multiset(vs)
  {
    RepushEachWaiting(s, vs);
    assert RepushEach(s, vs).waiting[..|vs|] == Reverse(vs);
  }

  lemma {:induction false} RepushEachWaiting(s: Store, vs: seq<Job>)
    ensures RepushEach(s, vs).waiting == Reverse(vs) + s.waiting
    decreases |vs|
  {
    if |vs| > 0 {
      var v, rest := vs[0], vs[1..];
      var s1 := Repush(s, v);
      RepushEachWaiting(s1, rest);
      assert RepushEach(s, vs).waiting == Reverse(rest) + s1.waiting;
      assert s1.waiting == [v] + s.waiting;
      assert Reverse(vs) == Reverse(rest) + [v];
      SeqAssoc(Reverse(rest), [v], s.waiting);
    }
  }

  lemma SeqAssoc<T>(a: seq<T>, b: seq<T>, c: seq<T>)
    ensures a + (b + c) == (a + b) + c
  {
  }

  lemma {:induction false} RepushEachWorking(s: Store, vs: seq<Job>)
    ensures RepushEach(s, vs).working == RemoveEach(s.working, vs)
    decreases |vs|
  {
    if |vs| > 0 {
      var v, rest := vs[0], vs[1..];
      var s1 := Repush(s, v);
      assert s1.working == RemoveFirst(s.working, v);
      RepushEachWorking(s1, rest);
      assert RepushEach(s, vs) == RepushEach(s1, rest);
      assert RemoveEach(s.working, vs) == RemoveEach(s1.working, rest);
    }
  }

  /** Repushing records that all sit in `working` neither loses nor copies a job. */
  lemma RepushEachConserves(s: Store, vs: seq<Job>)
    requires multiset(vs) <= multiset(s.working)
    ensures Held(RepushEach(s, vs)) == Held(s)
  {
    RepushEachClosedForm(s, vs);
    var r := RepushEach(s, vs);
    assert multiset(r.waiting) == multiset(vs) + multiset(s.waiting);
    assert multiset(r.working) == multiset(s.working) - multiset(vs);
  }
}

=== FILE: reaper.dfy ===
/**
 * `cleanup`: read the whole working list and repush the entries a time
 * condition selects, in list order. The repushes are issued together, so
 * Redis runs all the `LPUSH`es before the `LREM`s; pushes to `waiting` and
 * removals from `working` touch different lists, so the outcome is that of
 * repushing the entries one after the other, which is what is modelled.
 */
module Reaper {
  import opened Jobs
  import opened Lists
  import opened Queue

  /**
   * Repush every entry of `working` that `pick` selects, in list order.
   * The selected entries end up on `waiting` (the last one at the head), the
   * others stay in `working` in their order, exactly the selected ones
   * leave `working`, and no job is lost or copied.
   */
  function Sweep(s: Store, pick: Job -> bool): (r: Store)
    ensures r.waiting == Reverse(Filter(s.working, pick)) + s.waiting
    ensures r.working == Reject(s.working, pick)
    ensures Held(r) == Held(s)
    ensures multiset(r.working) + multiset(Filter(s.working, pick)) == multiset(s.working)
  {
    var picked := Filter(s.working, pick);
    FilterRejectPartition(s.working, pick);
    RepushEachClosedForm(s, picked);
    RemoveSelectedLeavesRejected(s.working, pick);
    RepushEachConserves(s, picked);
    RepushEach(s, picked)
  }

  /**
   * The condition `cleanup` applies as written: the entry's time plus the
   * job timeout still lies after `now`, that is, its deadline has not passed.
   */
  predicate Requeues(v: Job, now: int, jobTimeout: int)
  {
    v.t + jobTimeout > now
  }

  function RequeuedBy(now: int, jobTimeout: int): Job -> bool
  {
    v => Requeues(v, now, jobTimeout)
  }

  /**
   * One `cleanup` pass as written. The entries requeued are those whose
   * deadline `t + jobTimeout` is still after `now`; what stays in `working`
   * is, in order, the entries whose deadline has passed.
   */
  function Cleanup(s: Store, now: int, jobTimeout: int): (r: Store)
    ensures r.working == Reject(s.working, RequeuedBy(now, jobTimeout))
    ensures r.waiting == Reverse(Filter(s.working, RequeuedBy(now, jobTimeout))) + s.waiting
    ensures forall i :: 0 <= i < |r.working| ==> r.working[i].t + jobTimeout <= now
    ensures Held(r) == Held(s)
  {
    var r := Sweep(s, RequeuedBy(now, jobTimeout));
    assert forall i :: 0 <= i < |r.working| ==> !RequeuedBy(now, jobTimeout)(r.working[i]);
    r
  }

  /**
   * An entry of `working` leaves it in a `cleanup` pass exactly when its
   * deadline is still ahead, and then it is on `waiting`.
   */
  lemma CleanupMovesExactlyTheUnexpired(s: Store, now: int, jobTimeout: int, v: Job)
    requires v in s.working
    ensures v in Cleanup(s, now, jobTimeout).working <==> v.t + jobTimeout <= now
    ensures v.t + jobTimeout > now ==> v in Cleanup(s, now, jobTimeout).waiting
  {
    var sel := RequeuedBy(now, jobTimeout);
    var picked := Filter(s.working, sel);
    if v.t + jobTimeout > now {
      assert sel(v);
      assert v in picked;
      assert v in multiset(Reverse(picked));
    } else {
      assert !sel(v);
    }
  }

  /** An entry whose deadline `t + jobTimeout` is `now` or earlier. */
  predicate Stale(v: Job, now: int, jobTimeout: int)
  {
    v.t + jobTimeout <= now
  }

  function StaleAt(now: int, jobTimeout: int): Job -> bool
  {
    v => Stale(v, now, jobTimeout)
  }

  /**
   * The reaping `cleanup` is meant to do: requeue the entries whose deadline
   * has passed, and leave in `working`, in order, exactly the others.
   */
  function Reap(s: Store, now: int, jobTimeout: int): (r: Store)
    ensures r.working == Reject(s.working, StaleAt(now, jobTimeout))
    ensures r.waiting == Reverse(Filter(s.working, StaleAt(now, jobTimeout))) + s.waiting
    ensures forall i :: 0 <= i < |r.working| ==> r.working[i].t + jobTimeout > now
    ensures Held(r) == Held(s)
  {
    var r := Sweep(s, StaleAt(now, jobTimeout));
    assert forall i :: 0 <= i < |r.working| ==> !StaleAt(now, jobTimeout)(r.working[i]);
    r
  }

  /** An entry of `working` is reaped exactly when its deadline has passed. */
  lemma ReapMovesExactlyTheExpired(s: Store, now: int, jobTimeout: int, v: Job)
    requires v in s.working
    ensures v in Reap(s, now, jobTimeout).working <==> v.t + jobTimeout > now
    ensures v.t + jobTimeout <= now ==> v in Reap(s, now, jobTimeout).waiting
  {
    var sel := StaleAt(now, jobTimeout);
    var picked := Filter(s.working, sel);
    if v.t + jobTimeout <= now {
      assert sel(v);
      assert v in picked;
      assert v in multiset(Reverse(picked));
    } else {
      assert !sel(v);
    }
  }

  /**
   * As written, `cleanup` leaves a job that has sat in `working` for two
   * hours where it is, and requeues one fetched a moment ago, whose handler
   * may still be running; `Reap` does the opposite.
   */
  lemma CleanupSelectsTheWrongEntries()
    ensures OldJob in Cleanup(Store([], [OldJob]), TwoHours, DefaultJobTimeout).working
    ensures NewJob !in Cleanup(Store([], [NewJob]), TwoHours, DefaultJobTimeout).working
    ensures OldJob !in Reap(Store([], [OldJob]), TwoHours, DefaultJobTimeout).working
    ensures NewJob in Reap(Store([], [NewJob]), TwoHours, DefaultJobTimeout).working
  {
    CleanupMovesExactlyTheUnexpired(Store([], [OldJob]), TwoHours, DefaultJobTimeout, OldJob);
    CleanupMovesExactlyTheUnexpired(Store([], [NewJob]), TwoHours, DefaultJobTimeout, NewJob);
    ReapMovesExactlyTheExpired(Store([], [OldJob]), TwoHours, DefaultJobTimeout, OldJob);
    ReapMovesExactlyTheExpired(Store([], [NewJob]), TwoHours, DefaultJobTimeout, NewJob);
  }

  /** The default job timeout: one hour in milliseconds. */
  const DefaultJobTimeout: int := 1000 * 60 * 60

  /** The clock reading of the example: two hours after time 0. */
  const TwoHours: int := 2 * DefaultJobTimeout

  /** A job due at time 0, and one due at `TwoHours`, just fetched. */
  const OldJob: Job := Job(0, "send-email", Null)
  const NewJob: Job := Job(TwoHours, "send-email", Null)
}

=== FILE: retry.dfy ===
/**
 * The retry discipline of `repush` and `remove`: a store call that fails
 * changes nothing, reports the error and is issued again, with no backoff
 * and no cap. A `repush` needs two successful calls (`LPUSH`, then `LREM`);
 * a `remove` needs one (`LREM`).
 */
module Retry {
  import opened Jobs
  import opened Lists
  import opened Queue

  /** How far a `repush` or `remove` of one record has got. */
  datatype Phase = Pushing | Removing | Done

  /** Successful store calls still needed before the operation is done. */
  function Remaining(p: Phase): nat
  {
    match p
    case Pushing => 2
    case Removing => 1
    case Done => 0
  }

  /** The effect of one store reply: a failure changes nothing. */
  function Advance(p: Phase, s: Store, v: Job, ok: bool): (Phase, Store)
  {
    if !ok then (p, s)
    else match p
      case Pushing => (Removing, PushWaiting(s, v))
      case Removing => (Done, Remove(s, v))
      case Done => (Done, s)
  }

  /** The store once an operation that started in phase `p0` has reached phase `p`. */
  function Reached(p0: Phase, p: Phase, s: Store, v: Job): Store
  {
    if p == p0 then s
    else match p0
      case Pushing => if p == Removing then PushWaiting(s, v) else Repush(s, v)
      case Removing => Remove(s, v)
      case Done => s
  }

  /** Number of successful replies. */
  function Successes(replies: seq<bool>): nat
  {
    if |replies| == 0 then 0
    else Successes(replies[..|replies| - 1]) + (if replies[|replies| - 1] then 1 else 0)
  }

  lemma {:induction false} SuccessesOfPrefix(replies: seq<bool>, k: nat)
    requires k <= |replies|
    ensures Successes(replies[..k]) <= Successes(replies)
    ensures Successes(replies[..k]) <= k
    decreases |replies|
  {
    if |replies| == 0 {
      assert replies[..k] == replies;
    } else {
      var n := |replies| - 1;
      if k <= n {
        assert replies[..n][..k] == replies[..k];
        SuccessesOfPrefix(replies[..n], k);
      } else {
        assert replies[..k] == replies;
        assert replies[..n][..n] == replies[..n];
        SuccessesOfPrefix(replies[..n], n);
      }
    }
  }

  /**
   * Drive an operation that is in phase `p0` through the store's replies, in
   * order, until it is done or the replies run out. It finishes exactly when
   * the replies contain enough successes; it then leaves the store as one
   * uninterrupted `repush` or `remove` would; every failed reply it consumed
   * was reported once; and while it is unfinished the store shows only the
   * calls that have succeeded. It stops at the reply that finishes the
   * operation, since no call is issued after that.
   */
  method Drive(p0: Phase, s: Store, v: Job, replies: seq<bool>)
    returns (p: Phase, r: Store, used: nat, errors: nat)
    ensures used <= |replies|
    ensures p == Done <==> Successes(replies) >= Remaining(p0)
    ensures p != Done ==> used == |replies|
    ensures Remaining(p) + Successes(replies[..used]) == Remaining(p0)
    ensures errors + Successes(replies[..used]) == used
    ensures r == Reached(p0, p, s, v)
    ensures p0 != Done && p == Done ==> used > 0 && replies[used - 1]
  {
    p, r, used, errors := p0, s, 0, 0;
    while used < |replies| && p != Done
      invariant used <= |replies|
      invariant Remaining(p) + Successes(replies[..used]) == Remaining(p0)
      invariant errors + Successes(replies[..used]) == used
      invariant r == Reached(p0, p, s, v)
      invariant p0 != Done && p == Done ==> used > 0 && replies[used - 1]
      decreases |replies| - used
    {
      var ok := replies[used];
      assert replies[..used + 1][..used] == replies[..used];
      var next := Advance(p, r, v, ok);
      p, r := next.0, next.1;
      if !ok {
        errors := errors + 1;
      }
      used := used + 1;
    }
    SuccessesOfPrefix(replies, used);
    if p == Done && used < |replies| {
      assert Successes(replies[..used]) == Remaining(p0);
    }
    if used == |replies| {
      assert replies[..used] == replies;
    }
  }
}

=== FILE: runner.dfy ===
/**
 * `run`: what the worker does with a record it has just moved to `working`,
 * and what the handler's completion does to the store.
 */
module Runner {
  import opened Jobs
  import opened Queue

  /** The branch `run` takes for a fetched job. */
  datatype Dispatch =
      /** Not due yet: a timer repushes the record after `delay` milliseconds. */
    | Defer(delay: int)
      /** Due: the handler registered under `name` is called once with `options`. */
    | Invoke(name: string, options: Payload)
      /** Due, but no handler is registered under `name`: the lookup throws. */
    | NoHandler(name: string)

  /**
   * Decide what to do with `job` at clock reading `now`, given the names that
   * have handlers. A job is deferred exactly when its time is still ahead, by
   * exactly the time left; a handler is called only for a due job.
   */
  function Decide(job: Job, now: int, handlers: set<string>): (d: Dispatch)
    ensures d.Defer? <==> job.t > now
    ensures d.Defer? ==> d.delay > 0 && now + d.delay == job.t
    ensures d.Invoke? <==> job.t <= now && job.n in handlers
    ensures d.Invoke? ==> d.name == job.n && d.options == job.o
    ensures d.NoHandler? <==> job.t <= now && job.n !in handlers
  {
    var offset := job.t - now;
    if offset > 0 then Defer(offset)
    else if job.n in handlers then Invoke(job.n, job.o)
    else NoHandler(job.n)
  }

  /**
   * Whether `run` gets to re-arm `fetch`. It does in every branch except a
   * missing handler, whose lookup throws before the re-arm is reached.
   */
  function FetchRearmed(d: Dispatch): (rearmed: bool)
    ensures rearmed <==> d.Defer? || d.Invoke?
  {
    !d.NoHandler?
  }

  /**
   * The store once the handler of `job` reports back: success removes one
   * copy of the record from `working`; failure requeues it to the head of
   * `waiting` and then removes one copy from `working`.
   */
  function Complete(s: Store, job: Job, succeeded: bool): (r: Store)
    ensures succeeded ==> r.waiting == s.waiting
    ensures !succeeded ==> r.waiting == [job] + s.waiting
    ensures multiset(r.working) == multiset(s.working) - multiset{job}
  {
    if succeeded then Remove(s, job) else Repush(s, job)
  }

  /**
   * For a record the working list holds, a successful run drops exactly that
   * record from the store and a failed one keeps every job.
   */
  lemma CompleteAccounting(s: Store, job: Job)
    requires job in s.working
    ensures Held(Complete(s, job, true)) + multiset{job} == Held(s)
    ensures Held(Complete(s, job, false)) == Held(s)
  {
    RepushConserves(s, job);
    var r := Remove(s, job);
    assert multiset(r.working) + multiset{job} == multiset(s.working);
  }

  /**
   * A job `push` scheduled at clock reading `pushedAt` is deferred when
   * fetched at `now` exactly while its due time lies ahead: at once for no
   * time, at the given instant for a `Date`, `ms` later for a number of
   * milliseconds, and at once when the callback is missing.
   */
  lemma DueAsScheduled(name: string, o: Payload, call: PushCall, pushedAt: int, now: int,
                       handlers: set<string>)
    ensures var d := Decide(MakeJob(name, o, call, pushedAt), now, handlers);
      && (call.NoTime? ==> (d.Defer? <==> now < pushedAt))
      && (call.WithTime? && !call.callbackGiven ==> (d.Defer? <==> now < pushedAt))
      && (call.WithTime? && call.callbackGiven && call.time.At? ==>
            (d.Defer? <==> now < call.time.ms))
      && (call.WithTime? && call.callbackGiven && call.time.After? ==>
            (d.Defer? <==> now < pushedAt + call.time.ms)
            && (d.Defer? ==> d.delay == pushedAt + call.time.ms - now))
      && (d.Invoke? ==> d.name == name && d.options == o)
  {
  }
}
